=== FILE: README.md ===
# ibkr_news_bot: the dedup-and-publish core in Dafny

`ibkr_news_bot_m3.py` polls Interactive Brokers for historical news on a few
tickers and prints each new headline to the console, optionally posting it to
Telegram as well. It avoids duplicates with the set `seen_ids` of article
keys (`provider:articleId`), which it saves to a text file after every loop
iteration. This project models the deterministic core of that behaviour:

- **Seen-id file** (`seen_store.dfy`, on top of `text_ops.dfy`). `Load` reads
  the file the way `load_seen_ids` does: Python's universal-newline line
  iteration, `str.strip()` with Python's whitespace set, and blank lines
  dropped. A missing file is `None` and loads as the empty set.
  `SaveSeenIds` is the writing loop of `save_seen_ids`: it writes the ids in
  `sorted()` order (code-point lexicographic), each followed by `"\n"`.
  Proved: load after save gives back the set when every id is non-empty, has
  no line break and no leading or trailing whitespace. Save after load is
  always stable. Each such id survives a save and a load whatever the other
  ids hold. An id with a trailing blank comes back stripped.
- **Relative time** (`time_ago.dfy`). `ShortTimeAgo(ts, now, dateText)` is
  `short_time_ago`. The clock reading `now` and the absolute local date-time
  renderer `dateText` are parameters. `AgeOf` states the bucketing with both
  directions of every case. `RelativeTextDeterminesAge` shows that every
  relative text reads back as its bucket and count.
- **Formatting** (`news_format.dfy`). Provides the dedup key, the console
  block with its optional `Extra:` line and the body cut to 2000 characters,
  the console text as `print(text); print()` writes it, and the Telegram
  message.
- **One pass** (`ingest_cycle.dfy`). `RunSymbols` / `RunTicks` specify
  `fetch_and_publish_news` as a function of what the outside world answers.
  Per symbol, the answers are: qualification, and the fetch (raised, or a list
  of ticks). Per tick, they are: the body fetch, whether Telegram accepted the
  message, and whether rendering the timestamp raised. The state is the seen
  set and the sequence of published items.
- **The bot** (`news_bot.dfy`). Class `NewsBot` holds the `contracts`
  dictionary (its ticker order and its map), `seen_ids` and the output. Its
  methods are the start-up, the qualification sweep, the per-symbol tick loop,
  the whole pass and one loop iteration. Each is proved to produce exactly the
  state the pass specification gives.

Reading a file splits at `\n` and at `\r` separately. Python treats `\r\n` as
a single break, so here it yields one extra empty line. The blank-line filter
drops that line, so the loaded set is the same.

Behaviour of the code that the model keeps:

- `load_seen_ids` only treats a missing file as empty. Any other read or
  decoding error propagates and stops start-up; it is not turned into an empty
  set.
- Every tracked contract is re-qualified at the top of every iteration, not
  only the unresolved ones (`NewsBot.QualifyAll`).
- The qualification attempted inside `fetch_and_publish_news` for a contract
  without a `conId` is not written back to the dictionary.

## Model

| member | source | states |
|---|---|---|
| `SeenStore.Load` | ibkr_news_bot_m3.py:68-72 | a missing file gives the empty set; every loaded id is non-empty, has no line break and no leading or trailing whitespace |
| `TextOps.Strip` | ibkr_news_bot_m3.py:72 | `line.strip()`: the result is the line with a whitespace-only prefix and suffix cut off, and it starts and ends with non-whitespace or is empty; it is empty exactly when the line is all whitespace; an unpadded line is unchanged; it adds no line break |
| `TextOps.Lines` | ibkr_news_bot_m3.py:71-72 | the lines of the file hold no line break |
| `TextOps.FirstLineAt` | ibkr_news_bot_m3.py:71-72 | a break-free line followed by `\n` or `\r` is read as the first line, and reading goes on after that break |
| `TextOps.UnterminatedLine` | ibkr_news_bot_m3.py:71-72 | a non-empty break-free text, such as a last line cut short by an interrupted save, is read as one line; with the empty file giving no lines, these two fix the lines of every text |
| `SeenStore.Sorted` | ibkr_news_bot_m3.py:76 | `sorted(ids)`: every id exactly once, strictly ascending in code-point order |
| `SeenStore.SaveSeenIds` | ibkr_news_bot_m3.py:74-77 | the file is the sorted ids, each followed by a newline; loading it gives back the set when every id is valid |
| `SeenStore.LoadAfterSave` | ibkr_news_bot_m3.py:68-77 | load(save(S)) == S exactly when every id in S is non-empty, has no line break and no leading or trailing whitespace |
| `SeenStore.SaveAfterLoad` | ibkr_news_bot_m3.py:68-77 | load(save(load(f))) == load(f) for every file |
| `SeenStore.ValidIdSurvivesRestart` | ibkr_news_bot_m3.py:68-77 | a valid id in S is in load(save(S)) whatever the other ids of S hold |
| `SeenStore.PaddedIdComesBackStripped` | ibkr_news_bot_m3.py:72-77 | the key "BRN:1 " is saved and comes back as "BRN:1", so it would be re-published after a restart |
| `TextOps.JoinThenNewline` | ibkr_news_bot_m3.py:185-187 | for a non-empty block, the lines joined by newlines plus one newline equal every line followed by a newline |
| `TextOps.DecimalRoundTrip` | ibkr_news_bot_m3.py:101-105 | the count written by f"{n}" reads back as n, negative counts included |
| `TimeAgo.AgeOf` | ibkr_news_bot_m3.py:93-106 | unknown exactly when ts is missing or 0; with s = now - ts, seconds exactly when s < 60 (negative s included) with count s; minutes exactly when 60 <= s < 3600 with count n in 1..59 and 60n <= s < 60(n+1); hours exactly when 3600 <= s < 86400 with count in 1..23 bounding s likewise; absolute date exactly when s >= 86400 |
| `TimeAgo.RelativeTextDeterminesAge` | ibkr_news_bot_m3.py:94-105 | every non-absolute text ("unknown time", "<n>s ago", "<n>m ago", "<n>h ago") reads back as the bucket and count it was rendered from |
| `TimeAgo.UnknownTimestamp` | ibkr_news_bot_m3.py:94-95 | a missing or zero timestamp renders as "unknown time" |
| `TimeAgo.Examples` | ibkr_news_bot_m3.py:99-105 | 30 seconds ago renders as "30s ago", 7200 seconds ago as "2h ago" |
| `NewsFormat.KeyIdentifiesArticle` | ibkr_news_bot_m3.py:152 | when provider codes hold no colon, two ticks share a key exactly when they share provider and article id |
| `NewsFormat.ColonInProviderCollides` | ibkr_news_bot_m3.py:152 | with a colon in a provider code, two different articles share a key |
| `NewsFormat.BlockLines` | ibkr_news_bot_m3.py:163-180 | header "=== sym \| provider \| time ===", then "Headline: ..."; an "Extra: ..." line exactly when extra is non-empty; the marker and body lines exactly when a non-empty body was fetched; the body line is the body's first min(len, 2000) characters |
| `NewsFormat.ConsoleText` | ibkr_news_bot_m3.py:185-187 | the printed text is every block line followed by a newline, then one more newline (`Render(lines) + "\n"`); an empty block prints two newlines; it starts with the block's first line |
| `IngestCycle.CycleDedup` | ibkr_news_bot_m3.py:150-197 | after a pass, seen only grew and equals the old set plus exactly the keys of the items published; earlier output is kept; no published key was seen before; no key is published twice in a pass, even when the fetch lists it twice |
| `IngestCycle.LaterDuplicateChangesNothing` | ibkr_news_bot_m3.py:150-197 | when a fetch lists a key twice, the first tick in fetch order is the one published: appending a tick whose key an earlier tick carries, or whose key was already seen, leaves seen and the output unchanged, whether or not earlier ticks raise |
| `IngestCycle.TicksSnoc` | ibkr_news_bot_m3.py:150-197 | without raises, walking the ticks plus one more is walking the ticks, then that one from where the walk stopped |
| `IngestCycle.FailedSymbolIsInert` | ibkr_news_bot_m3.py:115-202 | a symbol that fails qualification or whose fetch raises changes nothing: the pass is the pass without that symbol, so later symbols are unaffected |
| `IngestCycle.AbortKeepsEarlierItems` | ibkr_news_bot_m3.py:150-202 | when rendering an unseen tick raises, the symbol's earlier new items stay published and seen, the rest of the symbol is dropped, and the failing key stays unseen; earlier ticks may themselves be flagged as raising when their key was already seen |
| `IngestCycle.PassIsIdempotent` | ibkr_news_bot_m3.py:150-197 | when no tick's timestamp rendering raises, a second pass over the same answers publishes nothing and leaves seen unchanged (with a raise the pass is not idempotent: see `IngestCycle.RaiseCanBreakIdempotence`) |
| `IngestCycle.RaiseCanBreakIdempotence` | ibkr_news_bot_m3.py:150-202 | AAPL lists X (whose time stamp raises) then Y, TSLA lists X with a time stamp that renders: the first pass sees only "BRN:X" (from TSLA); the second pass, with X now seen, gets past it on AAPL and adds "BRN:Y"; every run meets `PossibleRun` |
| `IngestCycle.RestartRepublishesNothing` | ibkr_news_bot_m3.py:249-252 | after a pass, a save and a reload, the same pass publishes nothing, provided no timestamp rendering raises and every key it meets is non-empty, has no line break and no leading or trailing whitespace |
| `IngestCycle.TelegramOutcomeIsIgnored` | ibkr_news_bot_m3.py:189-197 | the seen set and the console output of a pass are the same whether or not any Telegram message got through |
| `IngestCycle.OneItemScenario` | ibkr_news_bot_m3.py:108-202 | AAPL with one new BRN item and TSLA with none: one post, AAPL's block "=== AAPL \| BRN \| unknown time ===" then "Headline: A", seen becomes {"BRN:1"}, and a second pass adds nothing |
| `Bot.FirstOccurrences` | ibkr_news_bot_m3.py:220-224 | the dictionary's keys: exactly the tickers, each once, ordered by the position of each ticker's first occurrence |
| `Bot.NewsBot.constructor` | ibkr_news_bot_m3.py:207-224 | seen is the loaded file; one unqualified contract per distinct ticker, in first-occurrence order; nothing published |
| `Bot.NewsBot.QualifyAll` | ibkr_news_bot_m3.py:236-246 | each contract is replaced by the qualified one when qualification succeeds, and otherwise kept; nothing else changes |
| `Bot.AssemblePost` | ibkr_news_bot_m3.py:157-194 | the loop body for a new tick (time text, optional body, block lines, console text, Telegram message) builds exactly the post of `PostFor`, which `BlockLines` and `ConsoleText` describe line by line |
| `Bot.NewsBot.PublishTicks` | ibkr_news_bot_m3.py:150-197 | the tick loop leaves seen and the output exactly as `RunTicks` specifies |
| `Bot.NewsBot.FetchAndPublish` | ibkr_news_bot_m3.py:108-202 | the symbol loop leaves seen and the output exactly as `RunSymbols` specifies, with contracts unchanged |
| `Bot.NewsBot.Iterate` | ibkr_news_bot_m3.py:233-253 | one iteration is qualify, pass, save: contracts updated as by `QualifyAll`, then the pass over them; seen only grew; the file holds the sorted seen ids |

## Left out

- The IB connection and the library calls (`connect`, `qualifyContracts`, `reqHistoricalNewsAsync`, `reqNewsArticle`) are foreign. Their results are inputs: a qualification outcome and a fetch outcome per symbol, and a body outcome per tick. What `qualifyContracts` returns, and whether it updates the contract in place, belongs to the library.
- The article body is taken as a given string. The `str(art)` coercion depends on the library's return type.
- Telegram posting over HTTP (`post_to_telegram`) is reduced to a per-tick "delivered or not" input. Every failure is swallowed.
- The `asyncio` event loop, the infinite `while True`, both sleeps and the catch-all handler around an iteration are scheduling. Only one iteration is modelled (`NewsBot.Iterate`). A failure while saving the file is not modelled.
- Clock and time zone: `now` is an integer parameter, and the absolute date-time string is given by the parameter `dateText`. The float `total_seconds()` truncated by `int()` is taken as the exact integer `now - ts`. The second `short_time_ago` call for the Telegram message uses the same `now`.
- `datetime.fromtimestamp` raising for an out-of-range timestamp is a per-tick input (`timeRaises`). Which timestamps raise depends on the platform.
- `timeRaises` is a per-tick input. The model does not force two ticks with the same time stamp to raise alike. `PossibleRun` states the one constraint the code imposes: only a present, non-zero time stamp can raise.
- File-system access and text decoding: the seen file is either missing or its decoded text. Read and decode errors are not modelled.
- The environment-variable configuration, logging and the `req_id` counter are left out. The body-fetch switch and whether Telegram is configured are fields of `Config`.
- `getattr` defaults on a tick: provider code and article id are always-present strings, and a missing or `None` headline or extra is the empty string.
- Failures of `print` itself are not modelled.

=== FILE: ingest_cycle.dfy ===
/**
 * One pass of `fetch_and_publish_news` as a function of its inputs: for
 * every tracked symbol, qualify it if needed, fetch its ticks, and publish
 * each tick whose key has not been seen, marking the key seen right after.
 * The news source, the article-body fetch and Telegram delivery are inputs.
 */
module IngestCycle {
  import opened Wrappers
  import opened TextOps
  import opened TimeAgo
  import opened NewsFormat
  import opened SeenStore

  /** A contract as the bot holds it; a zero `conId` means not yet qualified. */
  datatype Contract = Contract(conId: int) {
    predicate HasConId() { conId != 0 }
  }

  /** What asking the source to qualify a contract gave. */
  datatype QualifyOutcome = Qualified(conId: int) | NotQualified | QualifyRaised

  /** What asking for an article body gave. */
  datatype BodyFetch = Article(text: string) | ArticleFailed

  /**
   * One fetched tick with what the outside world does when it is handled:
   * the body fetch, whether Telegram accepted the message, and whether
   * rendering its timestamp raised (an out-of-range time stamp).
   */
  datatype TickRun = TickRun(tick: NewsTick, body: BodyFetch, delivered: bool, timeRaises: bool)

  /**
   * A tick run the source can produce: the time is only rendered, and so can
   * only raise, for a time stamp that is present and not zero.
   */
  predicate PossibleRun(run: TickRun) {
    run.timeRaises ==> run.tick.timestamp.Some? && run.tick.timestamp.value != 0
  }

  datatype FetchOutcome = FetchRaised | Ticks(items: seq<TickRun>)

  /** Everything the source answers for one symbol in one pass. */
  datatype SymbolFeed = SymbolFeed(qualify: QualifyOutcome, news: FetchOutcome)

  /**
   * The settings the pass reads: fetch bodies or not, Telegram configured
   * or not, the clock, and how an absolute local time is written.
   */
  datatype Config = Config(fetchBody: bool, telegram: bool, now: int, dateText: int -> string)

  /** One published item: its key, its console block and the Telegram message that got through. */
  datatype Post = Post(key: string, console: string, telegram: Option<string>)

  /** The state a pass changes: the seen keys and everything published so far. */
  datatype Output = Output(seen: set<string>, posts: seq<Post>)

  function KeysOf(posts: seq<Post>): set<string> {
    set p | p in posts :: p.key
  }

  /** The ticks a symbol's pass walks: none when qualification fails or the fetch raises. */
  function FetchedItems(c: Contract, feed: SymbolFeed): seq<TickRun> {
    if !c.HasConId() && !feed.qualify.Qualified? then []
    else match feed.news
      case FetchRaised => []
      case Ticks(items) => items
  }

  /** The article body the block shows, if any was fetched. */
  function BodyOf(run: TickRun, cfg: Config): Option<string> {
    if cfg.fetchBody && run.body.Article? then Some(run.body.text) else None
  }

  /** The post a new tick of `symbol` produces. */
  function PostFor(symbol: string, run: TickRun, cfg: Config): Post {
    var time := ShortTimeAgo(run.tick.timestamp, cfg.now, cfg.dateText);
    var lines := BlockLines(symbol, run.tick, time, BodyOf(run, cfg));
    var message := if cfg.telegram && run.delivered then Some(TelegramText(symbol, run.tick, time)) else None;
    Post(ArticleKey(run.tick), ConsoleText(lines), message)
  }

  /** The ticks of one symbol from `out` on; a tick whose time rendering raises ends the symbol. */
  function RunTicks(symbol: string, items: seq<TickRun>, cfg: Config, out: Output): Output
    decreases |items|
  {
    if items == [] then out
    else
      var run := items[0];
      var key := ArticleKey(run.tick);
      if key in out.seen then RunTicks(symbol, items[1..], cfg, out)
      else if run.timeRaises then out
      else RunTicks(symbol, items[1..], cfg, Output(out.seen + {key}, out.posts + [PostFor(symbol, run, cfg)]))
  }

  /** One whole pass over the symbols, in order. */
  function RunSymbols(symbols: seq<string>, contracts: map<string, Contract>, feed: string -> SymbolFeed,
                      cfg: Config, out: Output): Output
    requires forall s :: s in symbols ==> s in contracts
    decreases |symbols|
  {
    if symbols == [] then out
    else
      var s := symbols[0];
      RunSymbols(symbols[1..], contracts, feed, cfg, RunTicks(s, FetchedItems(contracts[s], feed(s)), cfg, out))
  }

  // ---------------------------------------------------------------------
  // Dedup: what a pass adds to the seen set is exactly what it published.

  /**
   * `after` continues `before`: the old posts are kept, the seen set grows
   * by the keys of the new posts and nothing else, no new post was seen
   * before, and no key is published twice.
   */
  ghost predicate Extends(before: Output, after: Output) {
    && |before.posts| <= |after.posts|
    && after.posts[..|before.posts|] == before.posts
    && after.seen == before.seen + KeysOf(after.posts[|before.posts|..])
    && (forall i :: |before.posts| <= i < |after.posts| ==> after.posts[i].key !in before.seen)
    && (forall i, j :: |before.posts| <= i < j < |after.posts| ==> after.posts[i].key != after.posts[j].key)
  }

  lemma KeysOfAppend(xs: seq<Post>, ys: seq<Post>)
    ensures KeysOf(xs + ys) == KeysOf(xs) + KeysOf(ys)
  {
    forall k | k in KeysOf(xs + ys) ensures k in KeysOf(xs) + KeysOf(ys) {
      var p :| p in xs + ys && p.key == k;
      assert p in xs || p in ys;
    }
    forall k | k in KeysOf(xs) ensures k in KeysOf(xs + ys) {
      var p :| p in xs && p.key == k;
      assert p in xs + ys;
    }
    forall k | k in KeysOf(ys) ensures k in KeysOf(xs + ys) {
      var p :| p in ys && p.key == k;
      assert p in xs + ys;
    }
  }

  lemma {:induction false} ExtendsTransitive(a: Output, b: Output, c: Output)
    requires Extends(a, b) && Extends(b, c)
    ensures Extends(a, c)
  {
    var na, nb := |a.posts|, |b.posts|;
    assert c.posts[..na] == c.posts[..nb][..na];
    assert c.posts[na..] == b.posts[na..] + c.posts[nb..];
    KeysOfAppend(b.posts[na..], c.posts[nb..]);
    forall i | na <= i < |c.posts| ensures c.posts[i].key !in a.seen {
      if i < nb { assert c.posts[i] == b.posts[i]; }
    }
    forall i, j | na <= i < j < |c.posts| ensures c.posts[i].key != c.posts[j].key {
      if j >= nb && i < nb {
        assert c.posts[i] == b.posts[i] && b.posts[i] in b.posts[na..];
        assert c.posts[i].key in b.seen;
      } else if j < nb {
        assert c.posts[i] == b.posts[i] && c.posts[j] == b.posts[j];
      }
    }
  }

  lemma {:induction false} PublishExtends(out: Output, p: Post)
    requires p.key !in out.seen
    ensures Extends(out, Output(out.seen + {p.key}, out.posts + [p]))
  {
    var after := Output(out.seen + {p.key}, out.posts + [p]);
    assert after.posts[|out.posts|..] == [p];
    assert KeysOf([p]) == {p.key};
  }

  lemma {:induction false} TicksExtend(symbol: string, items: seq<TickRun>, cfg: Config, out: Output)
    ensures Extends(out, RunTicks(symbol, items, cfg, out))
    decreases |items|
  {
    assert out.posts[|out.posts|..] == [];
    if items != [] {
      var run := items[0];
      var key := ArticleKey(run.tick);
      if key in out.seen {
        TicksExtend(symbol, items[1..], cfg, out);
      } else if !run.timeRaises {
        var mid := Output(out.seen + {key}, out.posts + [PostFor(symbol, run, cfg)]);
        PublishExtends(out, PostFor(symbol, run, cfg));
        TicksExtend(symbol, items[1..], cfg, mid);
        ExtendsTransitive(out, mid, RunTicks(symbol, items, cfg, out));
      }
    }
  }

  lemma {:induction false} SymbolsExtend(symbols: seq<string>, contracts: map<string, Contract>,
                                         feed: string -> SymbolFeed, cfg: Config, out: Output)
    requires forall s :: s in symbols ==> s in contracts
    ensures Extends(out, RunSymbols(symbols, contracts, feed, cfg, out))
    decreases |symbols|
  {
    if symbols == [] {
      assert out.posts[|out.posts|..] == [];
    } else {
      var s := symbols[0];
      var mid := RunTicks(s, FetchedItems(contracts[s], feed(s)), cfg, out);
      TicksExtend(s, FetchedItems(contracts[s], feed(s)), cfg, out);
      SymbolsExtend(symbols[1..], contracts, feed, cfg, mid);
      ExtendsTransitive(out, mid, RunSymbols(symbols, contracts, feed, cfg, out));
    }
  }

  /**
   * After a pass the seen set is the old one plus exactly the keys of the
   * items published in the pass; earlier output is kept; no published key
   * had been seen before; and no key is published twice, even when the
   * source lists it twice.
   */
  lemma CycleDedup(symbols: seq<string>, contracts: map<string, Contract>,
                   feed: string -> SymbolFeed, cfg: Config, out: Output)
    requires forall s :: s in symbols ==> s in contracts
    ensures var r := RunSymbols(symbols, contracts, feed, cfg, out);
      && out.seen <= r.seen
      && |out.posts| <= |r.posts| && r.posts[..|out.posts|] == out.posts
      && r.seen == out.seen + KeysOf(r.posts[|out.posts|..])
      && (forall i :: |out.posts| <= i < |r.posts| ==> r.posts[i].key !in out.seen)
      && (forall i, j :: |out.posts| <= i < j < |r.posts| ==> r.posts[i].key != r.posts[j].key)
  {
    SymbolsExtend(symbols, contracts, feed, cfg, out);
  }

  // ---------------------------------------------------------------------
  // Isolation: a symbol that fails leaves no trace and stops nothing else.

  lemma {:induction false} SymbolsAppend(a: seq<string>, b: seq<string>, contracts: map<string, Contract>,
                                         feed: string -> SymbolFeed, cfg: Config, out: Output)
    requires forall s :: s in a + b ==> s in contracts
    ensures RunSymbols(a + b, contracts, feed, cfg, out)
         == RunSymbols(b, contracts, feed, cfg, RunSymbols(a, contracts, feed, cfg, out))
    decreases |a|
  {
    if a == [] {
      assert a + b == b;
    } else {
      var s := a[0];
      assert (a + b)[0] == s && (a + b)[1..] == a[1..] + b;
      SymbolsAppend(a[1..], b, contracts, feed, cfg, RunTicks(s, FetchedItems(contracts[s], feed(s)), cfg, out));
    }
  }

  /**
   * A symbol whose qualification fails or whose fetch raises changes nothing:
   * the pass over the other symbols, before and after it, is as if it were
   * not tracked.
   */
  lemma FailedSymbolIsInert(before: seq<string>, s: string, after: seq<string>, contracts: map<string, Contract>,
                            feed: string -> SymbolFeed, cfg: Config, out: Output)
    requires forall x :: x in before + [s] + after ==> x in contracts
    requires (!contracts[s].HasConId() && !feed(s).qualify.Qualified?) || feed(s).news.FetchRaised?
    ensures RunSymbols(before + [s] + after, contracts, feed, cfg, out)
         == RunSymbols(before + after, contracts, feed, cfg, out)
  {
    SymbolsAppend(before + [s], after, contracts, feed, cfg, out);
    SymbolsAppend(before, [s], contracts, feed, cfg, out);
    SymbolsAppend(before, after, contracts, feed, cfg, out);
  }

  predicate NoRaise(items: seq<TickRun>) {
    forall r :: r in items ==> !r.timeRaises
  }

  /**
   * When rendering the `k`-th tick raises, the symbol's earlier new items are
   * still published and marked seen, and that tick and everything after it
   * in the symbol are dropped, its key left unseen for the next pass. Earlier
   * ticks may be flagged as raising too: a seen one is skipped before its
   * time is rendered, and an unseen one ends the symbol even sooner.
   */
  lemma {:induction false} AbortKeepsEarlierItems(symbol: string, items: seq<TickRun>, k: nat, cfg: Config, out: Output)
    requires k < |items| && items[k].timeRaises
    requires ArticleKey(items[k].tick) !in RunTicks(symbol, items[..k], cfg, out).seen
    ensures RunTicks(symbol, items, cfg, out) == RunTicks(symbol, items[..k], cfg, out)
    ensures ArticleKey(items[k].tick) !in RunTicks(symbol, items, cfg, out).seen
    decreases k
  {
    if k > 0 {
      var run := items[0];
      var key := ArticleKey(run.tick);
      assert items[..k][0] == run && items[..k][1..] == items[1..][..k - 1];
      assert items[1..][k - 1] == items[k];
      if key in out.seen {
        AbortKeepsEarlierItems(symbol, items[1..], k - 1, cfg, out);
      } else if !run.timeRaises {
        AbortKeepsEarlierItems(symbol, items[1..], k - 1, cfg,
                               Output(out.seen + {key}, out.posts + [PostFor(symbol, run, cfg)]));
      }
    }
  }

  // ---------------------------------------------------------------------
  // Idempotence: a second pass over the same answers publishes nothing.

  predicate TicksCovered(items: seq<TickRun>, seen: set<string>) {
    forall r :: r in items ==> ArticleKey(r.tick) in seen
  }

  /** Every tick the pass will walk has a key in `seen`. */
  predicate Covered(symbols: seq<string>, contracts: map<string, Contract>, feed: string -> SymbolFeed, seen: set<string>)
    requires forall s :: s in symbols ==> s in contracts
    decreases |symbols|
  {
    symbols != [] ==>
      && TicksCovered(FetchedItems(contracts[symbols[0]], feed(symbols[0])), seen)
      && Covered(symbols[1..], contracts, feed, seen)
  }

  /** No tick the pass will walk raises while being rendered. */
  predicate PassNoRaise(symbols: seq<string>, contracts: map<string, Contract>, feed: string -> SymbolFeed)
    requires forall s :: s in symbols ==> s in contracts
    decreases |symbols|
  {
    symbols != [] ==>
      && NoRaise(FetchedItems(contracts[symbols[0]], feed(symbols[0])))
      && PassNoRaise(symbols[1..], contracts, feed)
  }

  lemma {:induction false} TicksCoverTheirKeys(symbol: string, items: seq<TickRun>, cfg: Config, out: Output)
    requires NoRaise(items)
    ensures TicksCovered(items, RunTicks(symbol, items, cfg, out).seen)
    decreases |items|
  {
    if items != [] {
      var run := items[0];
      var key := ArticleKey(run.tick);
      var mid := if key in out.seen then out else Output(out.seen + {key}, out.posts + [PostFor(symbol, run, cfg)]);
      TicksCoverTheirKeys(symbol, items[1..], cfg, mid);
      TicksExtend(symbol, items[1..], cfg, mid);
      forall r | r in items ensures ArticleKey(r.tick) in RunTicks(symbol, items, cfg, out).seen {
        if r != run { assert r in items[1..]; }
      }
    }
  }

  /** Without raises, walking one more tick continues from where the walk stopped. */
  lemma {:induction false} TicksSnoc(symbol: string, items: seq<TickRun>, b: TickRun, cfg: Config, out: Output)
    requires NoRaise(items)
    ensures RunTicks(symbol, items + [b], cfg, out) == RunTicks(symbol, [b], cfg, RunTicks(symbol, items, cfg, out))
    decreases |items|
  {
    if items == [] {
      assert items + [b] == [b];
    } else {
      var run := items[0];
      var key := ArticleKey(run.tick);
      assert (items + [b])[0] == run && (items + [b])[1..] == items[1..] + [b];
      if key in out.seen {
        TicksSnoc(symbol, items[1..], b, cfg, out);
      } else {
        TicksSnoc(symbol, items[1..], b, cfg, Output(out.seen + {key}, out.posts + [PostFor(symbol, run, cfg)]));
      }
    }
  }

  /**
   * Of two ticks with one key in a fetch, the first is the one published:
   * a later tick whose key an earlier tick already carries, or whose key was
   * seen before the symbol, changes nothing. Earlier ticks may raise.
   */
  lemma {:induction false} LaterDuplicateChangesNothing(symbol: string, items: seq<TickRun>, b: TickRun,
                                                       cfg: Config, out: Output)
    requires (exists a :: a in items && ArticleKey(a.tick) == ArticleKey(b.tick)) || ArticleKey(b.tick) in out.seen
    ensures RunTicks(symbol, items + [b], cfg, out) == RunTicks(symbol, items, cfg, out)
    decreases |items|
  {
    var dup := ArticleKey(b.tick);
    if items == [] {
      assert items + [b] == [b] && [b][0] == b && [b][1..] == [];
    } else {
      var run := items[0];
      var key := ArticleKey(run.tick);
      assert (items + [b])[0] == run && (items + [b])[1..] == items[1..] + [b];
      if key in out.seen {
        if dup !in out.seen {
          var a :| a in items && ArticleKey(a.tick) == dup;
          assert a in items[1..];
        }
        LaterDuplicateChangesNothing(symbol, items[1..], b, cfg, out);
      } else if !run.timeRaises {
        var next := Output(out.seen + {key}, out.posts + [PostFor(symbol, run, cfg)]);
        if dup !in next.seen {
          var a :| a in items && ArticleKey(a.tick) == dup;
          assert a in items[1..];
        }
        LaterDuplicateChangesNothing(symbol, items[1..], b, cfg, next);
      }
    }
  }

  lemma {:induction false} PassCoversItsKeys(symbols: seq<string>, contracts: map<string, Contract>,
                                             feed: string -> SymbolFeed, cfg: Config, out: Output)
    requires forall s :: s in symbols ==> s in contracts
    requires PassNoRaise(symbols, contracts, feed)
    ensures Covered(symbols, contracts, feed, RunSymbols(symbols, contracts, feed, cfg, out).seen)
    decreases |symbols|
  {
    if symbols != [] {
      var s := symbols[0];
      var items := FetchedItems(contracts[s], feed(s));
      var mid := RunTicks(s, items, cfg, out);
      var r := RunSymbols(symbols, contracts, feed, cfg, out);
      TicksCoverTheirKeys(s, items, cfg, out);
      PassCoversItsKeys(symbols[1..], contracts, feed, cfg, mid);
      SymbolsExtend(symbols[1..], contracts, feed, cfg, mid);
      forall x | x in items ensures ArticleKey(x.tick) in r.seen {
        assert ArticleKey(x.tick) in mid.seen;
      }
    }
  }

  lemma {:induction false} CoveredTicksAreSkipped(symbol: string, items: seq<TickRun>, cfg: Config, out: Output)
    requires TicksCovered(items, out.seen)
    ensures RunTicks(symbol, items, cfg, out) == out
    decreases |items|
  {
    if items != [] {
      assert items[0] in items;
      CoveredTicksAreSkipped(symbol, items[1..], cfg, out);
    }
  }

  lemma {:induction false} CoveredPassIsSkipped(symbols: seq<string>, contracts: map<string, Contract>,
                                                feed: string -> SymbolFeed, cfg: Config, out: Output)
    requires forall s :: s in symbols ==> s in contracts
    requires Covered(symbols, contracts, feed, out.seen)
    ensures RunSymbols(symbols, contracts, feed, cfg, out) == out
    decreases |symbols|
  {
    if symbols != [] {
      var s := symbols[0];
      CoveredTicksAreSkipped(s, FetchedItems(contracts[s], feed(s)), cfg, out);
      CoveredPassIsSkipped(symbols[1..], contracts, feed, cfg, out);
    }
  }

  /**
   * Running the same pass twice over unchanged answers publishes each key
   * once: the second pass changes nothing.
   */
  lemma PassIsIdempotent(symbols: seq<string>, contracts: map<string, Contract>,
                         feed: string -> SymbolFeed, cfg: Config, cfg2: Config, out: Output)
    requires forall s :: s in symbols ==> s in contracts
    requires PassNoRaise(symbols, contracts, feed)
    ensures var r := RunSymbols(symbols, contracts, feed, cfg, out);
      RunSymbols(symbols, contracts, feed, cfg2, r) == r
  {
    PassCoversItsKeys(symbols, contracts, feed, cfg, out);
    CoveredPassIsSkipped(symbols, contracts, feed, cfg2, RunSymbols(symbols, contracts, feed, cfg, out));
  }

  // ---------------------------------------------------------------------
  // Restart: the saved seen file keeps a finished pass from repeating.

  /** Every tick the pass will walk has a key that the seen file stores faithfully. */
  predicate PassKeysValid(symbols: seq<string>, contracts: map<string, Contract>, feed: string -> SymbolFeed)
    requires forall s :: s in symbols ==> s in contracts
    decreases |symbols|
  {
    symbols != [] ==>
      && (forall r :: r in FetchedItems(contracts[symbols[0]], feed(symbols[0])) ==> ValidId(ArticleKey(r.tick)))
      && PassKeysValid(symbols[1..], contracts, feed)
  }

  lemma {:induction false} CoveredSurvivesRestart(symbols: seq<string>, contracts: map<string, Contract>,
                                                  feed: string -> SymbolFeed, seen: set<string>)
    requires forall s :: s in symbols ==> s in contracts
    requires Covered(symbols, contracts, feed, seen) && PassKeysValid(symbols, contracts, feed)
    ensures Covered(symbols, contracts, feed, Load(Some(Render(Sorted(seen)))))
    decreases |symbols|
  {
    if symbols != [] {
      var items := FetchedItems(contracts[symbols[0]], feed(symbols[0]));
      forall r | r in items ensures ArticleKey(r.tick) in Load(Some(Render(Sorted(seen)))) {
        ValidIdSurvivesRestart(seen, ArticleKey(r.tick));
      }
      CoveredSurvivesRestart(symbols[1..], contracts, feed, seen);
    }
  }

  /**
   * After a pass, saving the seen set and loading it back (a restart) and
   * running the same pass again publishes nothing, provided every key the
   * pass meets is stored faithfully by the seen file.
   */
  lemma RestartRepublishesNothing(symbols: seq<string>, contracts: map<string, Contract>,
                                  feed: string -> SymbolFeed, cfg: Config, cfg2: Config, out: Output)
    requires forall s :: s in symbols ==> s in contracts
    requires PassNoRaise(symbols, contracts, feed) && PassKeysValid(symbols, contracts, feed)
    ensures var r := RunSymbols(symbols, contracts, feed, cfg, out);
      var restarted := Output(Load(Some(Render(Sorted(r.seen)))), r.posts);
      RunSymbols(symbols, contracts, feed, cfg2, restarted) == restarted
  {
    var r := RunSymbols(symbols, contracts, feed, cfg, out);
    PassCoversItsKeys(symbols, contracts, feed, cfg, out);
    CoveredSurvivesRestart(symbols, contracts, feed, r.seen);
    CoveredPassIsSkipped(symbols, contracts, feed, cfg2, Output(Load(Some(Render(Sorted(r.seen)))), r.posts));
  }

  // ---------------------------------------------------------------------
  // Telegram: whether a message gets through changes nothing else.

  function Muted(items: seq<TickRun>): (r: seq<TickRun>)
    ensures |r| == |items| && forall i :: 0 <= i < |items| ==> r[i] == items[i].(delivered := false)
  {
    seq(|items|, i requires 0 <= i < |items| => items[i].(delivered := false))
  }

  /** The same answers with every Telegram delivery failing. */
  function MutedFeed(feed: SymbolFeed): SymbolFeed {
    match feed.news
    case FetchRaised => feed
    case Ticks(items) => feed.(news := Ticks(Muted(items)))
  }

  /** Equal seen sets and equal console output, Telegram messages aside. */
  ghost predicate SameButTelegram(a: Output, b: Output) {
    && a.seen == b.seen
    && |a.posts| == |b.posts|
    && forall i :: 0 <= i < |a.posts| ==> a.posts[i].key == b.posts[i].key && a.posts[i].console == b.posts[i].console
  }

  lemma PublishSameButTelegram(a: Output, b: Output, key: string, p: Post, q: Post)
    requires SameButTelegram(a, b) && p.key == q.key && p.console == q.console
    ensures SameButTelegram(Output(a.seen + {key}, a.posts + [p]), Output(b.seen + {key}, b.posts + [q]))
  {
    var a', b' := a.posts + [p], b.posts + [q];
    forall i | 0 <= i < |a'| ensures a'[i].key == b'[i].key && a'[i].console == b'[i].console {
      if i < |a.posts| {
        assert a'[i] == a.posts[i] && b'[i] == b.posts[i];
      }
    }
  }

  lemma {:induction false} TicksIgnoreDelivery(symbol: string, items: seq<TickRun>, cfg: Config, a: Output, b: Output)
    requires SameButTelegram(a, b)
    ensures SameButTelegram(RunTicks(symbol, items, cfg, a), RunTicks(symbol, Muted(items), cfg, b))
    decreases |items|
  {
    if items != [] {
      var run := items[0];
      var muted := Muted(items);
      assert muted[0] == run.(delivered := false);
      assert muted[1..] == Muted(items[1..]);
      var key := ArticleKey(run.tick);
      if key in a.seen {
        TicksIgnoreDelivery(symbol, items[1..], cfg, a, b);
      } else if !run.timeRaises {
        var p, q := PostFor(symbol, run, cfg), PostFor(symbol, muted[0], cfg);
        PublishSameButTelegram(a, b, key, p, q);
        TicksIgnoreDelivery(symbol, items[1..], cfg, Output(a.seen + {key}, a.posts + [p]), Output(b.seen + {key}, b.posts + [q]));
      }
    }
  }

  lemma {:induction false} SymbolsIgnoreDelivery(symbols: seq<string>, contracts: map<string, Contract>,
                                                 feed: string -> SymbolFeed, cfg: Config, a: Output, b: Output)
    requires forall s :: s in symbols ==> s in contracts
    requires SameButTelegram(a, b)
    ensures SameButTelegram(RunSymbols(symbols, contracts, feed, cfg, a),
                            RunSymbols(symbols, contracts, s => MutedFeed(feed(s)), cfg, b))
    decreases |symbols|
  {
    if symbols != [] {
      var s := symbols[0];
      var items := FetchedItems(contracts[s], feed(s));
      assert FetchedItems(contracts[s], MutedFeed(feed(s))) == Muted(items);
      TicksIgnoreDelivery(s, items, cfg, a, b);
      SymbolsIgnoreDelivery(symbols[1..], contracts, feed, cfg,
        RunTicks(s, items, cfg, a), RunTicks(s, Muted(items), cfg, b));
    }
  }

  /**
   * A Telegram failure is swallowed: the seen set and the console output
   * of a pass are the same whether or not any message got through.
   */
  lemma TelegramOutcomeIsIgnored(symbols: seq<string>, contracts: map<string, Contract>,
                                 feed: string -> SymbolFeed, cfg: Config, out: Output)
    requires forall s :: s in symbols ==> s in contracts
    ensures var r := RunSymbols(symbols, contracts, feed, cfg, out);
      var m := RunSymbols(symbols, contracts, s => MutedFeed(feed(s)), cfg, out);
      && r.seen == m.seen && |r.posts| == |m.posts|
      && forall i :: 0 <= i < |r.posts| ==> r.posts[i].key == m.posts[i].key && r.posts[i].console == m.posts[i].console
  {
    SymbolsIgnoreDelivery(symbols, contracts, feed, cfg, out, out);
  }

  // ---------------------------------------------------------------------
  // A worked case: two symbols, one new item.

  /**
   * AAPL has one new item from provider BRN and TSLA has none: one post,
   * the seen set becomes {"BRN:1"}, and a second identical pass adds nothing.
   */
  lemma OneItemScenario(cfg: Config)
    ensures
      var contracts := map["AAPL" := Contract(265598), "TSLA" := Contract(76792991)];
      var tick := NewsTick("BRN", "1", "A", "", None);
      var feed := (s: string) =>
        if s == "AAPL" then SymbolFeed(NotQualified, Ticks([TickRun(tick, ArticleFailed, true, false)]))
        else SymbolFeed(NotQualified, Ticks([]));
      var r := RunSymbols(["AAPL", "TSLA"], contracts, feed, cfg, Output({}, []));
      && r.seen == {"BRN:1"} && |r.posts| == 1 && r.posts[0].key == "BRN:1"
      && r.posts[0].console == ConsoleText([HeaderLine("AAPL", "BRN", "unknown time"), "Headline: " + tick.headline])
      && RunSymbols(["AAPL", "TSLA"], contracts, feed, cfg, r) == r
  {
    var contracts := map["AAPL" := Contract(265598), "TSLA" := Contract(76792991)];
    var tick := NewsTick("BRN", "1", "A", "", None);
    var run := TickRun(tick, ArticleFailed, true, false);
    var feed := (s: string) =>
      if s == "AAPL" then SymbolFeed(NotQualified, Ticks([run]))
      else SymbolFeed(NotQualified, Ticks([]));
    var symbols := ["AAPL", "TSLA"];
    var start := Output({}, []);
    assert ArticleKey(tick) == "BRN:1";
    assert FetchedItems(contracts["AAPL"], feed("AAPL")) == [run];
    assert FetchedItems(contracts["TSLA"], feed("TSLA")) == [];
    var afterAapl := RunTicks("AAPL", [run], cfg, start);
    assert afterAapl == Output({"BRN:1"}, [PostFor("AAPL", run, cfg)]) by {
      assert [run][0] == run && [run][1..] == [];
      assert "BRN:1" !in start.seen;
      assert afterAapl == RunTicks("AAPL", [], cfg, Output(start.seen + {"BRN:1"}, start.posts + [PostFor("AAPL", run, cfg)]));
    }
    UntimedPost("AAPL", run, cfg);
    assert symbols[1..] == ["TSLA"] && symbols[1..][1..] == [];
    assert RunSymbols(symbols, contracts, feed, cfg, start) == afterAapl;
    assert PassNoRaise(symbols, contracts, feed);
    PassIsIdempotent(symbols, contracts, feed, cfg, cfg, start);
  }

  /** A tick without a time stamp, extra field or body prints its header and headline only. */
  lemma UntimedPost(symbol: string, run: TickRun, cfg: Config)
    requires run.tick.timestamp.None? && run.tick.extra == "" && BodyOf(run, cfg).None?
    ensures PostFor(symbol, run, cfg).console
         == ConsoleText([HeaderLine(symbol, run.tick.provider, "unknown time"), "Headline: " + run.tick.headline])
  {
    UnknownTimestamp(cfg.now, cfg.dateText);
  }

  // One step of the walk over `items` from position `i`, as the tick loop takes it.

  lemma WalkSeen(symbol: string, items: seq<TickRun>, i: nat, cfg: Config, out: Output)
    requires i < |items| && ArticleKey(items[i].tick) in out.seen
    ensures RunTicks(symbol, items[i..], cfg, out) == RunTicks(symbol, items[i + 1..], cfg, out)
  {
    assert items[i..][0] == items[i] && items[i..][1..] == items[i + 1..];
  }

  lemma WalkRaises(symbol: string, items: seq<TickRun>, i: nat, cfg: Config, out: Output)
    requires i < |items| && ArticleKey(items[i].tick) !in out.seen && items[i].timeRaises
    ensures RunTicks(symbol, items[i..], cfg, out) == out
  {
    assert items[i..][0] == items[i];
  }

  lemma WalkNew(symbol: string, items: seq<TickRun>, i: nat, cfg: Config, out: Output)
    requires i < |items| && ArticleKey(items[i].tick) !in out.seen && !items[i].timeRaises
    ensures RunTicks(symbol, items[i..], cfg, out)
         == RunTicks(symbol, items[i + 1..], cfg,
                     Output(out.seen + {ArticleKey(items[i].tick)}, out.posts + [PostFor(symbol, items[i], cfg)]))
  {
    assert items[i..][0] == items[i] && items[i..][1..] == items[i + 1..];
  }

  // The same steps on a list written `[run] + rest`, as the worked cases build it.

  lemma StepRaises(symbol: string, run: TickRun, rest: seq<TickRun>, cfg: Config, out: Output)
    requires run.timeRaises && ArticleKey(run.tick) !in out.seen
    ensures RunTicks(symbol, [run] + rest, cfg, out) == out
  {
    WalkRaises(symbol, [run] + rest, 0, cfg, out);
    assert ([run] + rest)[0..] == [run] + rest;
  }

  lemma StepSeen(symbol: string, run: TickRun, rest: seq<TickRun>, cfg: Config, out: Output)
    requires ArticleKey(run.tick) in out.seen
    ensures RunTicks(symbol, [run] + rest, cfg, out) == RunTicks(symbol, rest, cfg, out)
  {
    WalkSeen(symbol, [run] + rest, 0, cfg, out);
    assert ([run] + rest)[0..] == [run] + rest && ([run] + rest)[1..] == rest;
  }

  lemma StepNew(symbol: string, run: TickRun, cfg: Config, out: Output)
    requires !run.timeRaises && ArticleKey(run.tick) !in out.seen
    ensures RunTicks(symbol, [run], cfg, out).seen == out.seen + {ArticleKey(run.tick)}
  {
    WalkNew(symbol, [run], 0, cfg, out);
    assert [run][0..] == [run] && [run][1..] == [];
  }

  lemma TwoSymbols(a: string, b: string, contracts: map<string, Contract>, feed: string -> SymbolFeed,
                   cfg: Config, out: Output)
    requires a in contracts && b in contracts
    ensures RunSymbols([a, b], contracts, feed, cfg, out)
         == RunTicks(b, FetchedItems(contracts[b], feed(b)), cfg,
                     RunTicks(a, FetchedItems(contracts[a], feed(a)), cfg, out))
  {
    var mid := RunTicks(a, FetchedItems(contracts[a], feed(a)), cfg, out);
    assert [a, b][0] == a && [a, b][1..] == [b] && [b][0] == b && [b][1..] == [];
    SymbolStep([a, b], contracts, feed, cfg, out);
    SymbolStep([b], contracts, feed, cfg, mid);
  }

  lemma SymbolStep(symbols: seq<string>, contracts: map<string, Contract>, feed: string -> SymbolFeed,
                   cfg: Config, out: Output)
    requires symbols != [] && forall s :: s in symbols ==> s in contracts
    ensures RunSymbols(symbols, contracts, feed, cfg, out)
         == RunSymbols(symbols[1..], contracts, feed, cfg,
                       RunTicks(symbols[0], FetchedItems(contracts[symbols[0]], feed(symbols[0])), cfg, out))
  {
  }

  /**
   * Without the no-raise condition a second pass can publish more. AAPL lists
   * BRN:X with a time stamp that raises, then BRN:Y; TSLA lists BRN:X with a
   * good time stamp. The first pass stops AAPL at X, so Y is not reached, and
   * TSLA publishes X. On the second pass AAPL skips X as seen and reaches Y.
   */
  lemma RaiseCanBreakIdempotence(cfg: Config)
    ensures
      var contracts := map["AAPL" := Contract(265598), "TSLA" := Contract(76792991)];
      var badX := TickRun(NewsTick("BRN", "X", "A", "", Some(-99999999999999)), ArticleFailed, true, true);
      var y := TickRun(NewsTick("BRN", "Y", "B", "", Some(1)), ArticleFailed, true, false);
      var goodX := TickRun(NewsTick("BRN", "X", "A", "", Some(1)), ArticleFailed, true, false);
      var feed := (s: string) =>
        if s == "AAPL" then SymbolFeed(NotQualified, Ticks([badX, y]))
        else SymbolFeed(NotQualified, Ticks([goodX]));
      var first := RunSymbols(["AAPL", "TSLA"], contracts, feed, cfg, Output({}, []));
      var second := RunSymbols(["AAPL", "TSLA"], contracts, feed, cfg, first);
      && PossibleRun(badX) && PossibleRun(y) && PossibleRun(goodX)
      && first.seen == {"BRN:X"}
      && second.seen == {"BRN:X", "BRN:Y"}
  {
    var contracts := map["AAPL" := Contract(265598), "TSLA" := Contract(76792991)];
    var badX := TickRun(NewsTick("BRN", "X", "A", "", Some(-99999999999999)), ArticleFailed, true, true);
    var y := TickRun(NewsTick("BRN", "Y", "B", "", Some(1)), ArticleFailed, true, false);
    var goodX := TickRun(NewsTick("BRN", "X", "A", "", Some(1)), ArticleFailed, true, false);
    var feed := (s: string) =>
      if s == "AAPL" then SymbolFeed(NotQualified, Ticks([badX, y]))
      else SymbolFeed(NotQualified, Ticks([goodX]));
    assert ArticleKey(badX.tick) == "BRN:X" && ArticleKey(goodX.tick) == "BRN:X";
    assert ArticleKey(y.tick) == "BRN:Y";
    assert FetchedItems(contracts["AAPL"], feed("AAPL")) == [badX] + [y];
    assert FetchedItems(contracts["TSLA"], feed("TSLA")) == [goodX];

    var start := Output({}, []);
    StepRaises("AAPL", badX, [y], cfg, start);
    StepNew("TSLA", goodX, cfg, start);
    var first := RunTicks("TSLA", [goodX], cfg, start);
    TwoSymbols("AAPL", "TSLA", contracts, feed, cfg, start);

    assert "BRN:Y" !in first.seen by { assert "BRN:X"[4] != "BRN:Y"[4]; }
    StepSeen("AAPL", badX, [y], cfg, first);
    StepNew("AAPL", y, cfg, first);
    var aapl2 := RunTicks("AAPL", [y], cfg, first);
    StepSeen("TSLA", goodX, [], cfg, aapl2);
    assert [goodX] + [] == [goodX];
    TwoSymbols("AAPL", "TSLA", contracts, feed, cfg, first);
  }
}

=== FILE: news_bot.dfy ===
/**
 * The running bot: the `contracts` dictionary keyed by ticker, the `seen_ids`
 * set and what has been published, updated in place by the steps of
 * `main_loop` and `fetch_and_publish_news`. Each step is proved to do what
 * the pass specification in `IngestCycle` says.
 */
module Bot {
  import opened Wrappers
  import opened TextOps
  import opened TimeAgo
  import opened NewsFormat
  import opened SeenStore
  import opened IngestCycle

  predicate Distinct(xs: seq<string>) {
    forall i, j :: 0 <= i < j < |xs| ==> xs[i] != xs[j]
  }

  /** The keys of a dictionary filled by assigning each ticker in turn: first occurrences, in order. */
  function FirstOccurrences(xs: seq<string>): (r: seq<string>)
    ensures forall x :: x in r <==> x in xs
    ensures Distinct(r)
    ensures forall i, j, k :: 0 <= i < j < |r| && 0 <= k < |xs| && xs[k] == r[j] ==> r[i] in xs[..k]
  {
    if xs == [] then []
    else
      var init, last := xs[..|xs| - 1], xs[|xs| - 1];
      var r := FirstOccurrences(init);
      assert forall x :: x in xs <==> x in init || x == last;
      FirstOccurrencesStep(xs, r);
      if last in r then r else r + [last]
  }

  /** The order clause of `FirstOccurrences` carries over to one more ticker. */
  lemma FirstOccurrencesStep(xs: seq<string>, r: seq<string>)
    requires xs != []
    requires forall x :: x in r <==> x in xs[..|xs| - 1]
    requires forall i, j, k :: 0 <= i < j < |r| && 0 <= k < |xs| - 1 && xs[k] == r[j] ==> r[i] in xs[..k]
    ensures var r' := if xs[|xs| - 1] in r then r else r + [xs[|xs| - 1]];
      forall i, j, k :: 0 <= i < j < |r'| && 0 <= k < |xs| && xs[k] == r'[j] ==> r'[i] in xs[..k]
  {
    var init, last := xs[..|xs| - 1], xs[|xs| - 1];
    var r' := if last in r then r else r + [last];
    forall i, j, k | 0 <= i < j < |r'| && 0 <= k < |xs| && xs[k] == r'[j] ensures r'[i] in xs[..k] {
      if k < |xs| - 1 {
        assert xs[k] == init[k] && xs[..k] == init[..k];
        if j == |r| {
          assert false;
        } else {
          assert r'[i] == r[i] && r'[j] == r[j];
        }
      } else {
        assert xs[..k] == init && r'[i] == r[i] && r[i] in r;
      }
    }
  }

  /** The body of the tick loop for a new tick: time, optional body, console block and Telegram message. */
  method AssemblePost(symbol: string, run: TickRun, cfg: Config) returns (post: Post)
    ensures post == PostFor(symbol, run, cfg)
  {
    var time := ShortTimeAgo(run.tick.timestamp, cfg.now, cfg.dateText);
    var body: Option<string> := None;
    if cfg.fetchBody {
      match run.body
      case Article(text) => body := Some(text);
      case ArticleFailed =>
    }
    var lines := BlockLines(symbol, run.tick, time, body);
    var message: Option<string> := None;
    if cfg.telegram && run.delivered {
      message := Some(TelegramText(symbol, run.tick, time));
    }
    post := Post(ArticleKey(run.tick), ConsoleText(lines), message);
  }

  class NewsBot {
    /** The tickers of the `contracts` dictionary, in its iteration order. */
    var symbols: seq<string>
    var contracts: map<string, Contract>
    var seen: set<string>
    /** Everything published so far: console blocks and Telegram messages. */
    var posts: seq<Post>

    ghost predicate Valid()
      reads this
    {
      && Distinct(symbols)
      && forall s :: s in symbols <==> s in contracts
    }

    function Out(): Output
      reads this
    {
      Output(seen, posts)
    }

    /** Start-up: load the seen ids, then one unqualified stock contract per ticker. */
    constructor (tickers: seq<string>, seenFile: Option<string>)
      ensures Valid()
      ensures symbols == FirstOccurrences(tickers)
      ensures forall s :: s in contracts ==> contracts[s] == Contract(0)
      ensures seen == Load(seenFile) && posts == []
    {
      var keys: seq<string> := [];
      var dict: map<string, Contract> := map[];
      for i := 0 to |tickers|
        invariant keys == FirstOccurrences(tickers[..i])
        invariant forall s :: s in keys <==> s in dict
        invariant forall s :: s in dict ==> dict[s] == Contract(0)
      {
        var t := tickers[i];
        assert tickers[..i + 1][..i] == tickers[..i] && tickers[..i + 1][i] == t;
        if t !in dict {
          keys := keys + [t];
        }
        dict := dict[t := Contract(0)];
      }
      assert tickers[..|tickers|] == tickers;
      symbols := keys;
      contracts := dict;
      seen := Load(seenFile);
      posts := [];
    }

    /** The qualification sweep at the top of every loop iteration. */
    method QualifyAll(outcome: string -> QualifyOutcome)
      requires Valid()
      modifies this
      ensures Valid()
      ensures symbols == old(symbols) && seen == old(seen) && posts == old(posts)
      ensures contracts.Keys == old(contracts).Keys
      ensures forall s :: s in contracts ==>
        contracts[s] == if outcome(s).Qualified? then Contract(outcome(s).conId) else old(contracts)[s]
    {
      for i := 0 to |symbols|
        invariant symbols == old(symbols) && seen == old(seen) && posts == old(posts)
        invariant contracts.Keys == old(contracts).Keys
        invariant forall s :: s in contracts ==>
          contracts[s] == if s in symbols[..i] && outcome(s).Qualified? then Contract(outcome(s).conId) else old(contracts)[s]
      {
        var s := symbols[i];
        assert symbols[..i + 1] == symbols[..i] + [s];
        match outcome(s)
        case Qualified(conId) =>
          contracts := contracts[s := Contract(conId)];
        case NotQualified =>
        case QualifyRaised =>
      }
      assert symbols[..|symbols|] == symbols;
    }

    /** The tick loop of one symbol: skip seen keys, publish the rest, mark each seen right after. */
    method PublishTicks(symbol: string, items: seq<TickRun>, cfg: Config)
      modifies this
      ensures symbols == old(symbols) && contracts == old(contracts)
      ensures Out() == RunTicks(symbol, items, cfg, old(Out()))
    {
      var i := 0;
      while i < |items|
        invariant 0 <= i <= |items|
        invariant symbols == old(symbols) && contracts == old(contracts)
        invariant RunTicks(symbol, items, cfg, old(Out())) == RunTicks(symbol, items[i..], cfg, Out())
      {
        var run := items[i];
        var key := ArticleKey(run.tick);
        if key in seen {
          WalkSeen(symbol, items, i, cfg, Out());
          i := i + 1;
          continue;
        }
        if run.timeRaises {
          // Rendering the time raised: the rest of this symbol is abandoned.
          WalkRaises(symbol, items, i, cfg, Out());
          return;
        }
        WalkNew(symbol, items, i, cfg, Out());
        var post := AssemblePost(symbol, run, cfg);
        posts := posts + [post];
        seen := seen + {key};
        i := i + 1;
      }
    }

    /** `fetch_and_publish_news`: every symbol in order, each failure confined to its symbol. */
    method FetchAndPublish(feed: string -> SymbolFeed, cfg: Config)
      requires Valid()
      modifies this
      ensures Valid() && symbols == old(symbols) && contracts == old(contracts)
      ensures Out() == RunSymbols(symbols, contracts, feed, cfg, old(Out()))
    {
      for i := 0 to |symbols|
        invariant Valid() && symbols == old(symbols) && contracts == old(contracts)
        invariant RunSymbols(symbols, contracts, feed, cfg, old(Out()))
               == RunSymbols(symbols[i..], contracts, feed, cfg, Out())
      {
        var symbol := symbols[i];
        assert symbols[i..][0] == symbol && symbols[i..][1..] == symbols[i + 1..];
        var answer := feed(symbol);
        if !contracts[symbol].HasConId() && !answer.qualify.Qualified? {
          // Not qualified, or qualifying raised: skip this symbol.
          continue;
        }
        match answer.news
        case FetchRaised =>
        case Ticks(items) =>
          PublishTicks(symbol, items, cfg);
      }
    }

    /**
     * One iteration of the main loop: qualify, fetch and publish, then save
     * the seen ids; `file` is what the seen-id file then holds.
     */
    method Iterate(qualify: string -> QualifyOutcome, feed: string -> SymbolFeed, cfg: Config)
      returns (file: string)
      requires Valid()
      modifies this
      ensures Valid() && symbols == old(symbols) && contracts.Keys == old(contracts).Keys
      ensures forall s :: s in contracts ==>
        contracts[s] == if qualify(s).Qualified? then Contract(qualify(s).conId) else old(contracts)[s]
      ensures Out() == RunSymbols(symbols, contracts, feed, cfg, old(Out()))
      ensures old(seen) <= seen
      ensures file == Render(Sorted(seen))
    {
      QualifyAll(qualify);
      ghost var before := Out();
      FetchAndPublish(feed, cfg);
      CycleDedup(symbols, contracts, feed, cfg, before);
      file := SaveSeenIds(seen);
    }
  }
}

=== FILE: news_format.dfy ===
/**
 * One news tick and how a new one is rendered: the dedup key, the console
 * block and the one-message-per-item Telegram text.
 */
module NewsFormat {
  import opened Wrappers
  import opened TextOps

  /**
   * A historical news tick as the news source returns it. A missing
   * headline or extra field is the empty string.
   */
  datatype NewsTick = NewsTick(
    provider: string,
    articleId: string,
    headline: string,
    extra: string,
    timestamp: Option<int>)

  /** The dedup key of a tick: provider code, a colon, article id. */
  function ArticleKey(t: NewsTick): string {
    t.provider + ":" + t.articleId
  }

  /** Two ticks share a key exactly when they share provider and article id, if provider codes hold no colon. */
  lemma {:induction false} KeyIdentifiesArticle(t: NewsTick, u: NewsTick)
    requires ':' !in t.provider && ':' !in u.provider
    ensures ArticleKey(t) == ArticleKey(u) <==> t.provider == u.provider && t.articleId == u.articleId
  {
    var k, l := ArticleKey(t), ArticleKey(u);
    if k == l {
      KeyChars(t.provider, t.articleId, |u.provider|);
      KeyChars(u.provider, u.articleId, |t.provider|);
      if |t.provider| < |u.provider| {
        assert false;
      } else if |u.provider| < |t.provider| {
        assert false;
      }
      assert t.provider == k[..|t.provider|] == l[..|u.provider|] == u.provider;
      assert t.articleId == k[|t.provider| + 1..] == l[|u.provider| + 1..] == u.articleId;
    }
  }

  lemma KeyChars(provider: string, articleId: string, i: int)
    ensures (provider + ":" + articleId)[|provider|] == ':'
    ensures 0 <= i < |provider| ==> (provider + ":" + articleId)[i] == provider[i] && provider[i] in provider
  {
  }

  /** With a colon in a provider code, two different articles share one key. */
  lemma ColonInProviderCollides()
    ensures ArticleKey(NewsTick("A:B", "1", "", "", None)) == ArticleKey(NewsTick("A", "B:1", "", "", None))
  {
  }

  const BodyLimit := 2000
  const BodyMarker := "--- Article body (truncated) ---"

  function HeaderLine(symbol: string, provider: string, time: string): string {
    "=== " + symbol + " | " + provider + " | " + time + " ==="
  }

  /** Whether a fetched article body is shown: it was fetched and is non-empty. */
  predicate ShowsBody(body: Option<string>) {
    body.Some? && body.value != ""
  }

  /**
   * The lines of the console block for a new tick of `symbol`, with `time`
   * its relative time and `body` the article body if one was fetched.
   */
  function BlockLines(symbol: string, t: NewsTick, time: string, body: Option<string>): (lines: seq<string>)
    ensures |lines| == 2 + (if t.extra != "" then 1 else 0) + (if ShowsBody(body) then 2 else 0)
    ensures lines[0] == HeaderLine(symbol, t.provider, time)
    ensures lines[1] == "Headline: " + t.headline
    ensures t.extra != "" ==> lines[2] == "Extra: " + t.extra
    ensures ShowsBody(body) ==>
      var shown := lines[|lines| - 1];
      && lines[|lines| - 2] == BodyMarker
      && |shown| == (if |body.value| <= BodyLimit then |body.value| else BodyLimit)
      && shown == body.value[..|shown|]
  {
    var head := [HeaderLine(symbol, t.provider, time), "Headline: " + t.headline];
    var withExtra := if t.extra != "" then head + ["Extra: " + t.extra] else head;
    if ShowsBody(body) then withExtra + [BodyMarker, Prefix(body.value, BodyLimit)] else withExtra
  }

  /** What reaches the console: the block joined by newlines, then `print()`'s blank line. */
  function ConsoleText(lines: seq<string>): (text: string)
    ensures lines != [] ==> |lines[0]| <= |text| && text[..|lines[0]|] == lines[0]
    ensures |text| >= 2 && text[|text| - 2..] == "\n\n"
    ensures lines != [] ==> text == Render(lines) + "\n"
    ensures lines == [] ==> text == "\n\n"
  {
    var text := Join(lines, "\n") + "\n" + "\n";
    if lines == [] then text
    else
      JoinThenNewline(lines);
      text
  }

  /** The Telegram message for a new tick. */
  function TelegramText(symbol: string, t: NewsTick, time: string): string {
    symbol + " \U{2014} " + t.headline + "\n" + t.provider + "\n" + time
  }
}

=== FILE: seen_store.dfy ===
/**
 * The seen-id file: the set of article keys already published, kept as a
 * text file with one key per line (`load_seen_ids` / `save_seen_ids`).
 * A file that does not exist is `None`; an existing file is its decoded text.
 */
module SeenStore {
  import opened Wrappers
  import opened TextOps

  /** An id that survives a save and a load unchanged. */
  predicate ValidId(id: string) {
    id != [] && NoBreak(id) && !IsSpace(id[0]) && !IsSpace(id[|id| - 1])
  }

  /** Reading the file: every line stripped, blank lines dropped; no file means no ids. */
  function Load(file: Option<string>): (ids: set<string>)
    ensures file.None? ==> ids == {}
    ensures forall id :: id in ids ==> ValidId(id)
  {
    match file
    case None => {}
    case Some(text) => set line | line in Lines(text) && Strip(line) != [] :: Strip(line)
  }

  predicate IsLeast(m: string, ids: set<string>) {
    forall y :: y in ids ==> LexLe(m, y)
  }

  predicate Ascending(xs: seq<string>) {
    forall i, j :: 0 <= i < j < |xs| ==> LexLe(xs[i], xs[j]) && xs[i] != xs[j]
  }

  lemma {:induction false} LeastExists(ids: set<string>)
    requires ids != {}
    ensures exists m :: m in ids && IsLeast(m, ids)
    decreases |ids|
  {
    var x :| x in ids;
    var rest := ids - {x};
    LexLeReflexive(x);
    if rest != {} {
      LeastExists(rest);
      var m :| m in rest && IsLeast(m, rest);
      LexLeTotal(x, m);
      if LexLe(x, m) {
        forall y | y in ids ensures LexLe(x, y) {
          if y != x { LexLeTransitive(x, m, y); }
        }
      } else {
        assert IsLeast(m, ids);
      }
    } else {
      assert ids == {x};
    }
  }

  lemma LexLeAntisymmetricAll()
    ensures forall a, b :: LexLe(a, b) && LexLe(b, a) ==> a == b
  {
    forall a, b | LexLe(a, b) && LexLe(b, a) ensures a == b {
      LexLeAntisymmetric(a, b);
    }
  }

  /** Python's `sorted(ids)`: every id once, in ascending order. */
  function Sorted(ids: set<string>): (r: seq<string>)
    ensures |r| == |ids|
    ensures forall x :: x in r <==> x in ids
    ensures Ascending(r)
    decreases |ids|
  {
    if ids == {} then []
    else
      LeastExists(ids);
      LexLeAntisymmetricAll();
      var m :| m in ids && IsLeast(m, ids);
      var rest := Sorted(ids - {m});
      ConsAscending(m, ids, rest);
      [m] + rest
  }

  lemma ConsAscending(m: string, ids: set<string>, rest: seq<string>)
    requires m in ids && IsLeast(m, ids)
    requires forall x :: x in rest <==> x in ids - {m}
    requires Ascending(rest)
    ensures forall x :: x in [m] + rest <==> x in ids
    ensures Ascending([m] + rest)
  {
    var r := [m] + rest;
    forall i, j | 0 <= i < j < |r| ensures LexLe(r[i], r[j]) && r[i] != r[j] {
      if i > 0 {
        assert r[i] == rest[i - 1] && r[j] == rest[j - 1];
      } else {
        assert r[j] == rest[j - 1] && r[j] in rest;
      }
    }
  }

  lemma {:induction false} RenderSnoc(lines: seq<string>, line: string)
    ensures Render(lines + [line]) == Render(lines) + line + "\n"
  {
    if lines != [] {
      assert (lines + [line])[1..] == lines[1..] + [line];
      RenderSnoc(lines[1..], line);
    }
  }

  lemma {:induction false} RenderAppend(a: seq<string>, b: seq<string>)
    ensures Render(a + b) == Render(a) + Render(b)
    decreases |a|
  {
    if a == [] {
      assert a + b == b;
    } else {
      assert (a + b)[0] == a[0] && (a + b)[1..] == a[1..] + b;
      RenderAppend(a[1..], b);
    }
  }

  /** Splitting the rendered file gives back the lines, when none holds a line break. */
  lemma {:induction false} LinesOfRender(lines: seq<string>)
    requires forall l :: l in lines ==> NoBreak(l)
    ensures Lines(Render(lines)) == lines
  {
    if lines != [] {
      FirstLineIs(lines[0], Render(lines[1..]));
      LinesOfRender(lines[1..]);
    }
  }

  /** A line without breaks is read back as a line whatever the other lines hold. */
  lemma {:induction false} LineOfRender(before: seq<string>, id: string, after: seq<string>)
    requires NoBreak(id)
    ensures id in Lines(Render(before + [id] + after))
  {
    assert before + [id] + after == before + ([id] + after);
    RenderAppend(before, [id] + after);
    var head, tail := Render(before), Render(after);
    assert Render([id] + after) == id + "\n" + tail;
    LinesAppend(head, id + "\n" + tail);
    FirstLineIs(id, tail);
    assert Lines(Render(before + [id] + after)) == Lines(head) + ([id] + Lines(tail));
  }

  /** `save_seen_ids`: write the ids in ascending order, one per line. */
  method SaveSeenIds(ids: set<string>) returns (file: string)
    ensures file == Render(Sorted(ids))
    ensures (forall id :: id in ids ==> ValidId(id)) ==> Load(Some(file)) == ids
  {
    var sorted := Sorted(ids);
    file := "";
    for i := 0 to |sorted|
      invariant file == Render(sorted[..i])
    {
      RenderSnoc(sorted[..i], sorted[i]);
      assert sorted[..i + 1] == sorted[..i] + [sorted[i]];
      file := file + sorted[i] + "\n";
    }
    assert sorted[..|sorted|] == sorted;
    ghost var valid := forall id :: id in ids ==> ValidId(id);
    if valid {
      LoadAfterSave(ids);
    }
  }

  /**
   * Loading what was saved gives back the same set exactly when every id is
   * valid: an id with a line break or an edge blank never comes back as itself.
   */
  lemma {:induction false} LoadAfterSave(ids: set<string>)
    ensures Load(Some(Render(Sorted(ids)))) == ids <==> forall id :: id in ids ==> ValidId(id)
  {
    if forall id :: id in ids ==> ValidId(id) {
      var lines := Sorted(ids);
      LinesOfRender(lines);
      forall id | id in ids ensures id in Load(Some(Render(lines))) {
        assert id in lines && Strip(id) == id;
      }
    }
  }

  /** Saving what was loaded and loading it again gives the same set. */
  lemma SaveAfterLoad(file: Option<string>)
    ensures Load(Some(Render(Sorted(Load(file))))) == Load(file)
  {
    LoadAfterSave(Load(file));
  }

  /**
   * A valid id survives a save and a load whatever else the set holds: the
   * other ids, even ones with line breaks or blanks, cannot swallow its line.
   */
  lemma {:induction false} ValidIdSurvivesRestart(ids: set<string>, id: string)
    requires id in ids && ValidId(id)
    ensures id in Load(Some(Render(Sorted(ids))))
  {
    ValidIdInRender(Sorted(ids), id);
  }

  lemma {:induction false} ValidIdInRender(lines: seq<string>, id: string)
    requires id in lines && ValidId(id)
    ensures id in Load(Some(Render(lines)))
  {
    var i :| 0 <= i < |lines| && lines[i] == id;
    assert lines == lines[..i] + [id] + lines[i + 1..];
    LineOfRender(lines[..i], id, lines[i + 1..]);
    ValidLineIsLoaded(Render(lines), id);
  }

  lemma ValidLineIsLoaded(text: string, line: string)
    requires line in Lines(text) && ValidId(line)
    ensures line in Load(Some(text))
  {
    assert Strip(line) == line;
  }

  /** An id with a trailing blank does not survive a restart: it comes back stripped. */
  lemma PaddedIdComesBackStripped()
    ensures Load(Some(Render(Sorted({"BRN:1 "})))) == {"BRN:1"}
  {
    var lines := Sorted({"BRN:1 "});
    assert lines == ["BRN:1 "] by {
      assert |lines| == 1 && "BRN:1 " in lines;
    }
    LinesOfRender(lines);
    StripsTrailingBlank();
    LoadOneLine(Render(lines), "BRN:1 ");
  }

  lemma LoadOneLine(text: string, line: string)
    requires Lines(text) == [line] && Strip(line) != []
    ensures Load(Some(text)) == {Strip(line)}
  {
    assert line in Lines(text);
  }

  lemma StripsTrailingBlank()
    ensures Strip("BRN:1 ") == "BRN:1"
  {
    var padded := "BRN:1 ";
    assert !IsSpace(padded[0]);
    assert LeadingSpaces(padded) == 0;
    assert padded[..5] == "BRN:1" && !IsSpace('1');
    assert TrailingSpaces("BRN:1") == 0;
    assert TrailingSpaces(padded) == 1;
  }
}

=== FILE: text_ops.dfy ===
/**
 * The few Python `str` built-ins the bot relies on, written out over
 * `seq<char>`: `str.strip()`, reading a text file line by line,
 * `str(int)`, the ordering `sorted()` uses, `"\n".join(...)` and slicing.
 */
module TextOps {
  import opened Wrappers

  /** The characters for which Python's `str.isspace()` holds; `strip()` removes exactly these. */
  predicate IsSpace(c: char) {
    || c == ' '
    || ('\t' <= c <= '\r')
    || ('\U{1C}' <= c <= '\U{1F}')
    || c == '\U{85}' || c == '\U{A0}' || c == '\U{1680}'
    || ('\U{2000}' <= c <= '\U{200A}')
    || c == '\U{2028}' || c == '\U{2029}' || c == '\U{202F}' || c == '\U{205F}' || c == '\U{3000}'
  }

  /** The characters that end a line when a file is read in universal-newlines mode. */
  predicate IsLineBreak(c: char) {
    c == '\n' || c == '\r'
  }

  predicate NoBreak(s: string) {
    forall i :: 0 <= i < |s| ==> !IsLineBreak(s[i])
  }

  function LeadingSpaces(s: string): (k: nat)
    ensures k <= |s|
    ensures forall i :: 0 <= i < k ==> IsSpace(s[i])
    ensures k < |s| ==> !IsSpace(s[k])
  {
    if s == [] || !IsSpace(s[0]) then 0 else 1 + LeadingSpaces(s[1..])
  }

  function TrailingSpaces(s: string): (k: nat)
    ensures k <= |s|
    ensures forall i :: |s| - k <= i < |s| ==> IsSpace(s[i])
    ensures k < |s| ==> !IsSpace(s[|s| - 1 - k])
  {
    if s == [] || !IsSpace(s[|s| - 1]) then 0 else 1 + TrailingSpaces(s[..|s| - 1])
  }

  /** Python's `s.strip()`. */
  function Strip(s: string): (r: string)
    ensures r == [] || (!IsSpace(r[0]) && !IsSpace(r[|r| - 1]))
    ensures r == [] <==> forall i :: 0 <= i < |s| ==> IsSpace(s[i])
    ensures s != [] && !IsSpace(s[0]) && !IsSpace(s[|s| - 1]) ==> r == s
    ensures NoBreak(s) ==> NoBreak(r)
    ensures TrimOf(s, r)
  {
    var a := LeadingSpaces(s);
    var b := a + |s[a..]| - TrailingSpaces(s[a..]);
    SpacesAfterTrim(s, a, b);
    TrimEdges(s, a, b);
    TrimEmpty(s, a, b);
    TrimKeepsUnpadded(s, a, b);
    s[a..b]
  }

  /** `r` is `s` with some whitespace cut from its start and some from its end. */
  predicate TrimOf(s: string, r: string) {
    exists a, b :: 0 <= a <= b <= |s| && r == s[a..b]
      && (forall i :: 0 <= i < a ==> IsSpace(s[i]))
      && (forall i :: b <= i < |s| ==> IsSpace(s[i]))
  }

  lemma TrimBounds(s: string, a: nat, b: nat)
    requires a == LeadingSpaces(s) && b == a + |s[a..]| - TrailingSpaces(s[a..])
    ensures a <= b <= |s|
    ensures forall i :: b <= i < |s| ==> IsSpace(s[i])
  {
    var t := s[a..];
    assert forall i :: b <= i < |s| ==> s[i] == t[i - a];
  }

  lemma SpacesAfterTrim(s: string, a: nat, b: nat)
    requires a == LeadingSpaces(s) && b == a + |s[a..]| - TrailingSpaces(s[a..])
    ensures a <= b <= |s|
    ensures TrimOf(s, s[a..b])
    ensures NoBreak(s) ==> NoBreak(s[a..b])
  {
    TrimBounds(s, a, b);
  }

  lemma TrimEdges(s: string, a: nat, b: nat)
    requires a == LeadingSpaces(s) && b == a + |s[a..]| - TrailingSpaces(s[a..])
    ensures a <= b <= |s|
    ensures var r := s[a..b]; r == [] || (!IsSpace(r[0]) && !IsSpace(r[|r| - 1]))
  {
    TrimBounds(s, a, b);
    if a < b {
      KeptEnd(s, a, b);
      var r := s[a..b];
      assert r[0] == s[a] && r[|r| - 1] == s[b - 1];
    }
  }

  lemma KeptEnd(s: string, a: nat, b: nat)
    requires a == LeadingSpaces(s) && b == a + |s[a..]| - TrailingSpaces(s[a..]) && a < b
    ensures b <= |s| && !IsSpace(s[a]) && !IsSpace(s[b - 1])
  {
    var t := s[a..];
    var k := TrailingSpaces(t);
    assert !IsSpace(t[|t| - 1 - k]);
    assert t[|t| - 1 - k] == s[b - 1];
  }

  lemma TrimEmpty(s: string, a: nat, b: nat)
    requires a == LeadingSpaces(s) && b == a + |s[a..]| - TrailingSpaces(s[a..])
    ensures a <= b <= |s|
    ensures s[a..b] == [] <==> forall i :: 0 <= i < |s| ==> IsSpace(s[i])
  {
    TrimBounds(s, a, b);
  }

  lemma TrimKeepsUnpadded(s: string, a: nat, b: nat)
    requires a == LeadingSpaces(s) && b == a + |s[a..]| - TrailingSpaces(s[a..])
    ensures a <= b <= |s|
    ensures s != [] && !IsSpace(s[0]) && !IsSpace(s[|s| - 1]) ==> s[a..b] == s
  {
    SpacesAfterTrim(s, a, b);
    if s != [] && !IsSpace(s[0]) && !IsSpace(s[|s| - 1]) {
      assert s[a..] == s;
    }
  }

  /** The position of the first line break in `s` at or after `i`, or `|s|` when there is none. */
  function BreakFrom(s: string, i: nat): (k: nat)
    requires i <= |s|
    ensures i <= k <= |s|
    ensures forall j :: i <= j < k ==> !IsLineBreak(s[j])
    ensures k < |s| ==> IsLineBreak(s[k])
    decreases |s| - i
  {
    if i == |s| || IsLineBreak(s[i]) then i else BreakFrom(s, i + 1)
  }

  /** The length of the first line of `s`, not counting its line break. */
  function LineEnd(s: string): (k: nat)
    ensures k <= |s|
    ensures forall i :: 0 <= i < k ==> !IsLineBreak(s[i])
    ensures NoBreak(s[..k])
    ensures k < |s| ==> IsLineBreak(s[k])
  {
    BreakFrom(s, 0)
  }

  /**
   * The lines of a text file as `for line in f` yields them, each without
   * its line break. A `\r\n` pair is one break in Python and two here: the
   * extra line is empty, so callers that drop blank lines see the same result.
   */
  function Lines(s: string): (ls: seq<string>)
    ensures forall l :: l in ls ==> NoBreak(l)
    decreases |s|
  {
    if s == [] then []
    else
      var k := LineEnd(s);
      if k == |s| then [s] else [s[..k]] + Lines(s[k + 1..])
  }

  lemma {:induction false} LineEndOf(line: string, rest: string)
    requires NoBreak(line)
    requires rest != [] && IsLineBreak(rest[0])
    ensures LineEnd(line + rest) == |line|
  {
    var s := line + rest;
    assert s[|line|] == rest[0];
    assert forall j :: 0 <= j < |line| ==> s[j] == line[j];
  }

  /** A line without breaks, then any line break: it is the first line read. */
  lemma {:induction false} FirstLineAt(line: string, c: char, rest: string)
    requires NoBreak(line) && IsLineBreak(c)
    ensures Lines(line + [c] + rest) == [line] + Lines(rest)
  {
    var text := line + [c] + rest;
    assert text == line + ([c] + rest);
    LineEndOf(line, [c] + rest);
    assert text[..|line|] == line;
    assert text[|line| + 1..] == rest;
  }

  /** A line without breaks, then a newline: it is the first line read. */
  lemma FirstLineIs(line: string, rest: string)
    requires NoBreak(line)
    ensures Lines(line + "\n" + rest) == [line] + Lines(rest)
  {
    FirstLineAt(line, '\n', rest);
  }

  /** A last line without a line break is still read, as it stands. */
  lemma UnterminatedLine(s: string)
    requires s != [] && NoBreak(s)
    ensures Lines(s) == [s]
  {
    assert LineEnd(s) == |s|;
  }

  lemma LineEndBeforeFinalBreak(u: string)
    requires u != [] && IsLineBreak(u[|u| - 1])
    ensures LineEnd(u) < |u|
  {
  }

  /** One step of reading: the first line, then the lines after its break. */
  lemma LinesSplit(s: string, k: nat, first: string, tail: string)
    requires k == LineEnd(s) && k < |s|
    requires first == s[..k] && tail == s[k + 1..]
    ensures Lines(s) == [first] + Lines(tail)
  {
    assert s != [];
  }

  /** When `u` ends with a line break, its first line is also the first line of `u + v`. */
  lemma FirstLineOfAppend(u: string, v: string)
    requires u != [] && IsLineBreak(u[|u| - 1])
    ensures var k := LineEnd(u);
      && k < |u| && LineEnd(u + v) == k
      && (u + v)[..k] == u[..k] && (u + v)[k + 1..] == u[k + 1..] + v
  {
    var k := LineEnd(u);
    LineEndBeforeFinalBreak(u);
    SplitAt(u, v, k);
    LineEndOf(u[..k], u[k..] + v);
  }

  lemma SplitAt(u: string, v: string, k: nat)
    requires k < |u|
    ensures u + v == u[..k] + (u[k..] + v)
    ensures (u[k..] + v)[0] == u[k]
    ensures (u + v)[..k] == u[..k] && (u + v)[k + 1..] == u[k + 1..] + v
  {
    assert u == u[..k] + u[k..];
  }

  lemma ConsAppend<T>(first: T, xs: seq<T>, ys: seq<T>, whole: seq<T>, longer: seq<T>)
    requires whole == [first] + xs && longer == [first] + (xs + ys)
    ensures longer == whole + ys
  {
  }

  lemma {:induction false} LinesAppend(u: string, v: string)
    requires u == [] || IsLineBreak(u[|u| - 1])
    ensures Lines(u + v) == Lines(u) + Lines(v)
    decreases |u|
  {
    if u == [] {
      assert u + v == v;
    } else {
      var k := LineEnd(u);
      var rest := u[k + 1..];
      FirstLineOfAppend(u, v);
      LinesSplit(u, k, u[..k], rest);
      LinesSplit(u + v, k, u[..k], rest + v);
      assert rest != [] ==> rest[|rest| - 1] == u[|u| - 1];
      LinesAppend(rest, v);
      ConsAppend(u[..k], Lines(rest), Lines(v), Lines(u), Lines(u + v));
    }
  }

  /** Python's `<=` on `str`: lexicographic order by code point. */
  predicate LexLe(a: string, b: string) {
    a == [] || (b != [] && (a[0] < b[0] || (a[0] == b[0] && LexLe(a[1..], b[1..]))))
  }

  lemma {:induction false} LexLeReflexive(a: string)
    ensures LexLe(a, a)
  {
    if a != [] { LexLeReflexive(a[1..]); }
  }

  lemma {:induction false} LexLeAntisymmetric(a: string, b: string)
    requires LexLe(a, b) && LexLe(b, a)
    ensures a == b
  {
    if a != [] && b != [] {
      LexLeAntisymmetric(a[1..], b[1..]);
      assert a == [a[0]] + a[1..] && b == [b[0]] + b[1..];
    }
  }

  lemma {:induction false} LexLeTransitive(a: string, b: string, c: string)
    requires LexLe(a, b) && LexLe(b, c)
    ensures LexLe(a, c)
  {
    if a != [] && b != [] && c != [] && a[0] == b[0] == c[0] {
      LexLeTransitive(a[1..], b[1..], c[1..]);
    }
  }

  lemma {:induction false} LexLeTotal(a: string, b: string)
    ensures LexLe(a, b) || LexLe(b, a)
  {
    if a != [] && b != [] && a[0] == b[0] {
      LexLeTotal(a[1..], b[1..]);
    }
  }

  function DigitChar(d: nat): (c: char)
    requires d < 10
    ensures '0' <= c <= '9' && (c as int) - ('0' as int) == d
  {
    (('0' as int) + d) as char
  }

  predicate IsDigits(s: string) {
    forall i :: 0 <= i < |s| ==> '0' <= s[i] <= '9'
  }

  /** The decimal numeral of `n`, without sign or leading zeros. */
  function NatDigits(n: nat): (r: string)
    ensures r != [] && IsDigits(r)
    ensures r[0] == '0' ==> n == 0
  {
    if n < 10 then [DigitChar(n)] else NatDigits(n / 10) + [DigitChar(n % 10)]
  }

  /** Python's `str(n)` (and `f"{n}"`) for an `int`. */
  function DecimalString(n: int): (r: string)
    ensures r != []
  {
    if n < 0 then "-" + NatDigits(-n) else NatDigits(n)
  }

  /** The value of a numeral made of decimal digits. */
  function DigitsValue(s: string): nat
    requires IsDigits(s)
  {
    if s == [] then 0 else 10 * DigitsValue(s[..|s| - 1]) + ((s[|s| - 1] as int) - ('0' as int))
  }

  /** Reads back an optional minus sign followed by at least one digit. */
  function ParseDecimal(s: string): (r: Option<int>)
    ensures r.Some? ==> s != []
  {
    if s != [] && s[0] == '-' then
      if |s| > 1 && IsDigits(s[1..]) then Some(-(DigitsValue(s[1..]) as int)) else None
    else if s != [] && IsDigits(s) then Some(DigitsValue(s))
    else None
  }

  lemma {:induction false} NatDigitsValue(n: nat)
    ensures DigitsValue(NatDigits(n)) == n
  {
    if n >= 10 {
      var r := NatDigits(n);
      assert r[..|r| - 1] == NatDigits(n / 10);
      NatDigitsValue(n / 10);
    }
  }

  /** `str(n)` is read back as `n`: distinct counts give distinct numerals. */
  lemma DecimalRoundTrip(n: int)
    ensures ParseDecimal(DecimalString(n)) == Some(n)
  {
    if n < 0 {
      NegativeRoundTrip(-n);
    } else {
      NaturalRoundTrip(n);
    }
  }

  lemma NaturalRoundTrip(n: nat)
    ensures ParseDecimal(NatDigits(n)) == Some(n)
  {
    var d := NatDigits(n);
    assert d[0] != '-';
    NatDigitsValue(n);
  }

  lemma NegativeRoundTrip(m: nat)
    ensures ParseDecimal("-" + NatDigits(m)) == Some(-(m as int))
  {
    var d := NatDigits(m);
    var r := "-" + d;
    assert r[0] == '-' && |r| > 1;
    assert r[1..] == d;
    NatDigitsValue(m);
  }

  /** Python's `sep.join(parts)`. */
  function Join(parts: seq<string>, sep: string): (r: string)
    ensures parts != [] ==> |parts[0]| <= |r| && r[..|parts[0]|] == parts[0]
  {
    if parts == [] then ""
    else if |parts| == 1 then parts[0]
    else parts[0] + sep + Join(parts[1..], sep)
  }

  /** The text of `lines` written one per line, each followed by `"\n"`. */
  function Render(lines: seq<string>): (text: string)
    ensures lines != [] ==> text != [] && text[|text| - 1] == '\n'
  {
    if lines == [] then "" else lines[0] + "\n" + Render(lines[1..])
  }

  /** Joining non-empty `lines` with newlines and ending the last one too is writing each line with its newline. */
  lemma {:induction false} JoinThenNewline(lines: seq<string>)
    requires lines != []
    ensures Join(lines, "\n") + "\n" == Render(lines)
  {
    if |lines| == 1 {
      assert Render(lines[1..]) == "";
    } else {
      JoinThenNewline(lines[1..]);
      assert Join(lines, "\n") + "\n" == lines[0] + "\n" + (Join(lines[1..], "\n") + "\n");
    }
  }

  /** Python's `s[:n]` for `n >= 0`. */
  function Prefix(s: string, n: nat): (r: string)
    ensures |r| == if |s| <= n then |s| else n
    ensures r == s[..|r|]
  {
    if |s| <= n then s else s[..n]
  }
}

=== FILE: time_ago.dfy ===
/**
 * `short_time_ago`: how long ago an item was published, in whole seconds,
 * minutes or hours, or as an absolute local date-time beyond a day.
 * The clock reading `now` and the local date-time renderer `dateText`
 * are parameters.
 */
module TimeAgo {
  import opened Wrappers
  import opened TextOps

  /** The bucket a timestamp falls into, with its count. */
  datatype Age = UnknownTime | SecondsAgo(count: int) | MinutesAgo(count: int) | HoursAgo(count: int) | At(ts: int)

  const Minute := 60
  const Hour := 3600
  const Day := 86400

  /** Which form `short_time_ago` picks for `ts`, given `s = now - ts` elapsed seconds. */
  function AgeOf(ts: Option<int>, now: int): (a: Age)
    ensures a.UnknownTime? <==> ts.None? || ts.value == 0
    ensures a.SecondsAgo? <==> ts.Some? && ts.value != 0 && now - ts.value < Minute
    ensures a.MinutesAgo? <==> ts.Some? && ts.value != 0 && Minute <= now - ts.value < Hour
    ensures a.HoursAgo? <==> ts.Some? && ts.value != 0 && Hour <= now - ts.value < Day
    ensures a.At? <==> ts.Some? && ts.value != 0 && Day <= now - ts.value
    ensures a.SecondsAgo? ==> a.count == now - ts.value
    ensures a.MinutesAgo? ==> 1 <= a.count <= 59 && Minute * a.count <= now - ts.value < Minute * (a.count + 1)
    ensures a.HoursAgo? ==> 1 <= a.count <= 23 && Hour * a.count <= now - ts.value < Hour * (a.count + 1)
    ensures a.At? ==> a.ts == ts.value
  {
    if ts.None? || ts.value == 0 then UnknownTime
    else
      var s := now - ts.value;
      if s < Minute then SecondsAgo(s)
      else if s < Hour then MinutesAgo(s / Minute)
      else if s < Day then HoursAgo(s / Hour)
      else At(ts.value)
  }

  function AgeText(a: Age, dateText: int -> string): string {
    match a
    case UnknownTime => "unknown time"
    case SecondsAgo(n) => DecimalString(n) + "s ago"
    case MinutesAgo(n) => DecimalString(n) + "m ago"
    case HoursAgo(n) => DecimalString(n) + "h ago"
    case At(ts) => dateText(ts)
  }

  /** `short_time_ago(ts)` with the clock read as `now`. */
  function ShortTimeAgo(ts: Option<int>, now: int, dateText: int -> string): string {
    AgeText(AgeOf(ts, now), dateText)
  }

  /** Reads a relative-time text back into its bucket and count. */
  function ParseAge(text: string): Option<Age> {
    if text == "unknown time" then Some(UnknownTime)
    else if |text| >= 5 && text[|text| - 4..] == " ago" then
      match ParseDecimal(text[..|text| - 5])
      case None => None
      case Some(n) =>
        var unit := text[|text| - 5];
        if unit == 's' then Some(SecondsAgo(n))
        else if unit == 'm' then Some(MinutesAgo(n))
        else if unit == 'h' then Some(HoursAgo(n))
        else None
    else None
  }

  lemma {:induction false} ParseCountAgo(n: int, unit: char, text: string)
    requires text == DecimalString(n) + ([unit] + " ago")
    ensures ParseAge(text) == if unit == 's' then Some(SecondsAgo(n))
                              else if unit == 'm' then Some(MinutesAgo(n))
                              else if unit == 'h' then Some(HoursAgo(n))
                              else None
  {
    assert text[|text| - 1] == 'o';
    assert "unknown time"[11] == 'e';
    assert text[|text| - 4..] == " ago";
    assert text[..|text| - 5] == DecimalString(n);
    assert text[|text| - 5] == unit;
    DecimalRoundTrip(n);
  }

  /**
   * Every relative form names its bucket and count unambiguously: reading
   * the text back gives the age it was rendered from.
   */
  lemma {:induction false} RelativeTextDeterminesAge(ts: Option<int>, now: int, dateText: int -> string)
    requires !AgeOf(ts, now).At?
    ensures ParseAge(ShortTimeAgo(ts, now, dateText)) == Some(AgeOf(ts, now))
  {
    AgeTextReadsBack(AgeOf(ts, now), dateText);
  }

  lemma {:induction false} AgeTextReadsBack(a: Age, dateText: int -> string)
    requires !a.At?
    ensures ParseAge(AgeText(a, dateText)) == Some(a)
  {
    match a
    case UnknownTime =>
      assert AgeText(a, dateText) == "unknown time";
    case SecondsAgo(n) =>
      assert "s ago" == ['s'] + " ago";
      ParseCountAgo(n, 's', AgeText(a, dateText));
    case MinutesAgo(n) =>
      assert "m ago" == ['m'] + " ago";
      ParseCountAgo(n, 'm', AgeText(a, dateText));
    case HoursAgo(n) =>
      assert "h ago" == ['h'] + " ago";
      ParseCountAgo(n, 'h', AgeText(a, dateText));
  }

  /** A missing or zero timestamp renders as `unknown time`, whatever the clock says. */
  lemma UnknownTimestamp(now: int, dateText: int -> string)
    ensures ShortTimeAgo(None, now, dateText) == "unknown time"
    ensures ShortTimeAgo(Some(0), now, dateText) == "unknown time"
  {
  }

  /** Thirty seconds ago, two hours ago. */
  lemma Examples(now: int, dateText: int -> string)
    requires now - 7200 != 0 && now - 30 != 0
    ensures ShortTimeAgo(Some(now - 30), now, dateText) == "30s ago"
    ensures ShortTimeAgo(Some(now - 7200), now, dateText) == "2h ago"
  {
    assert NatDigits(30) == NatDigits(3) + [DigitChar(0)];
  }
}

=== FILE: wrappers.dfy ===
/** Optional values: a Python value that may be `None`. */
module Wrappers {
  datatype Option<+T> = None | Some(value: T)
}
